=== FILE: README.md ===
# Music visualizer playback engine, in Dafny

This project models the playback core of a browser music player whose audio
drives a 3D visualization. It has two parts:

- **The engine `AudioController`**, in `src/utils/AudioController.js`. It holds
  a track queue with a cursor (`currentTrackIndex`, -1 when no track is
  current) and one audio element. It offers play, pause, resume and toggle. It
  offers next and previous with wraparound, where previous follows the
  3-second "restart or go back" rule. It also offers range-checked
  `playTrackAtIndex`, volume clamping and seeking by percentage. A track that
  ends advances to the next one. A small publish/subscribe bus keeps three
  callback lists: `onTrackChange`, `onPlayStateChange` and `onTimeUpdate`.
- **The logic of the player controls**, in
  `src/components/PlayerControls/PlayerControls.jsx`. This part works out which
  queued track is loaded, by exact URL and then by file name. It formats
  seconds as `M:SS` and computes the displayed percentage. It also holds the
  play/pause, previous and volume handlers.

## Modules

- `js.dfy`, module `Js`: the JavaScript pieces the code relies on.
  - `undefined` is modelled as `Option`.
  - Truthiness of optional strings is `Truthy`.
  - NaN and the infinities are cases of `Number`.
  - `x % 60` is `Remainder60`. JavaScript's `%` truncates the quotient toward
    zero (`Trunc`), so the remainder takes the sign of `x`.
  - `findIndex`, `find` and `filter(cb => cb !== x)` are `FindIndex`, `Find`
    and `Without`.
- `text.dfy`, module `Text`: how integers are printed, `padStart`, and
  `split('/').pop()`.
- `media.dfy`, module `Media`: the audio element as a plain record with
  `src`, `paused`, `currentTime`, `duration` and `volume`.
  - Assigning `src` loads the new source: the element is paused, its position
    is 0 and its duration is unknown.
  - `pause()` only sets `paused`; `play()` clears it and restarts an element
    whose playback has ended from 0; at the end of a track the element pauses
    (`End`).
  - The module also holds the percentage, seek and clamp arithmetic.
- `queue.dfy`, module `Queue`: track descriptors and the rule by which `play`
  matches a source against the queue. It also holds the cursor arithmetic of
  next and previous, with lemmas about repeated `next()`.
- `controller.dfy`, module `Controller`: the class `AudioController`. Its
  fields are `isPlaying`, `currentTrackIndex`, `trackList`, `callbacks` and
  `audio`.
  - Each call of a subscriber is recorded in `invocations`, in order, as a
    (callback, event) pair.
  - `Valid()` is the engine's invariant: the cursor is at least -1, the three
    callback lists exist, and the volume is within [0, 1].
  - `CursorInRange()` holds whenever the cursor is -1 or an index into the
    list. Every operation except `setTracks` preserves it.
- `player_controls.dfy`, module `PlayerControls`: the controls' pure rules
  and their handlers. The handlers act on an `AudioController`.
- `scenarios.dfy`, module `Scenarios`: client methods that use only the
  contracts. They play a three-track session through its end and back with
  previous, wrap around, resume a paused source at its old position, and show
  that an empty queue ignores next and previous.

Behaviour of the code worth knowing, which the model keeps:

- `seekTo` does not clamp the percentage.
- `setTracks` leaves the cursor alone, so afterwards it may point past the end
  of the list. `getCurrentTrack` then gives `undefined`, or `null` when the
  new list is empty.
- `play` moves the cursor to the first track that matches either by preview
  URL or by id, in a single pass. It does not look for an id match first.
- The "ended" handler advances only when the track is not the last one. It
  never wraps around.
- A failure of `audio.play()` is only logged to the console. No subscriber is
  told.

## Model

| member | source | states |
|---|---|---|
| Js.Trunc | src/components/PlayerControls/PlayerControls.jsx:115 | the quotient inside `%` is truncated toward zero: the whole number within 1 of `x` on the side of zero, at most `x` for non-negative `x` and at least `x` for negative `x` |
| Js.Remainder60 | src/components/PlayerControls/PlayerControls.jsx:115 | `x % 60` differs from `x` by a whole multiple of 60 and lies in [0, 60) for non-negative `x` and in (-60, 0] for negative `x`, which fixes it uniquely |
| Js.FindIndex | src/utils/AudioController.js:92-95 | gives -1 exactly when no element satisfies the test; otherwise the index of the first element that does |
| Js.Without | src/utils/AudioController.js:220 | the removed callback no longer occurs, and every other callback keeps its number of occurrences |
| Js.WithoutAppend | src/utils/AudioController.js:220 | filtering distributes over concatenation, so the kept callbacks stay in their original order |
| Js.WithoutAbsent | src/utils/AudioController.js:220 | removing a callback that is not subscribed leaves the list unchanged |
| Js.WithoutIdempotent | src/utils/AudioController.js:218-223 | removing the same callback twice is the same as removing it once |
| Text.NatToString | src/components/PlayerControls/PlayerControls.jsx:116 | a non-empty string of decimal digits, with no leading zero, one digit below 10 and at most two below 100 |
| Text.NatToStringRoundTrip | src/components/PlayerControls/PlayerControls.jsx:116 | reading the printed digits back gives the number |
| Text.PadStart | src/components/PlayerControls/PlayerControls.jsx:115 | the result has the target width (or the original length if longer), ends with the original text and is filled on the left |
| Text.LastSegment | src/components/PlayerControls/PlayerControls.jsx:63 | the longest suffix with no '/', which is either the whole string or preceded by '/' |
| Text.LastSegmentOfPath | src/components/PlayerControls/PlayerControls.jsx:63-66 | `dir + "/" + name` has last segment `name`, whatever `dir` is |
| Text.LastSegmentOfName | src/components/PlayerControls/PlayerControls.jsx:63 | a string without '/' is its own last segment |
| Media.Load | src/utils/AudioController.js:88 | after `src` is assigned, the element holds the new source and is paused at position 0 with an unknown duration; the volume is kept |
| Media.Start | src/utils/AudioController.js:111-113 | `play()` unpauses the element; an element whose playback has ended (position at or past a known duration) starts again from 0; nothing else changes |
| Media.End | src/utils/AudioController.js:58-66 | the state in which the element fires "ended": playback has ended and the element is paused, with everything else kept |
| Media.RestartAfterEnd | src/utils/AudioController.js:124-139 | resuming an element that has played to its end plays it again from position 0, with the same source and duration |
| Media.Percentage | src/utils/AudioController.js:191-193 | 0 without a truthy duration; otherwise percentage × duration = position × 100, and the result is within [0, 100] when the position is within the duration |
| Media.SeekRoundTrip | src/utils/AudioController.js:198-202 | in exact arithmetic, the percentage read back after seeking to a percentage is that percentage |
| Media.Clamp | src/utils/AudioController.js:205-208 | the result is in [0, 1]; it is the input when the input is in range, 0 below the range and 1 above it |
| Queue.PlayMatch | src/utils/AudioController.js:91-109 | gives -1 exactly when no track has the preview `src` (or, with track info, a truthy equal id); otherwise the first such track |
| Queue.NextIndex | src/utils/AudioController.js:145 | the cursor after next is in range: one further on, or 0 after the last track |
| Queue.PrevIndex | src/utils/AudioController.js:156 | the cursor after stepping back is in range: one back, or the last track from the first |
| Queue.NextPrevInverse | src/utils/AudioController.js:142-161 | stepping forward then back, or back then forward, returns to the same track |
| Queue.Advance | src/utils/AudioController.js:142-147 | after one or more `next()` calls the cursor is within the queue |
| Queue.AdvanceWithinLap | src/utils/AudioController.js:142-147 | `k` ≤ n calls of `next()` from `i` land on `i + k`, or on `i + k - n` once past the end |
| Queue.FullCycle | src/utils/AudioController.js:142-147 | n calls of `next()` return to the starting track |
| Queue.AdvanceReachesEvery | src/utils/AudioController.js:142-147 | every track of the queue is reached within one lap of `next()` |
| Controller.AudioController.constructor | src/utils/AudioController.js:5-23 | no current track (-1), an empty queue, three empty callback lists, and a paused element with no source at volume 0.1 |
| Controller.AudioController.SetTracks | src/utils/AudioController.js:74-77 | the list is replaced and the cursor untouched; the cursor stays in range only if it is -1 or below the new length |
| Controller.AudioController.Play | src/utils/AudioController.js:80-114 | the same source while paused only resumes: source and cursor kept, the position kept, or reset to 0 if playback had ended; otherwise the source is loaded and started, the cursor moves to the first matching track with one track-change notification, or stays put when nothing matches |
| Controller.AudioController.PausePlayback | src/utils/AudioController.js:117-121 | the element ends up paused; nothing else changes |
| Controller.AudioController.ResumePlayback | src/utils/AudioController.js:124-130 | the element is paused afterwards exactly when it was paused with an empty source; a paused element with a source is started (from 0 if it had ended); otherwise nothing changes |
| Controller.AudioController.TogglePlayPause | src/utils/AudioController.js:133-139 | the paused flag flips, except that a paused element with no source stays paused; a resumed element that had ended starts from 0; nothing else changes |
| Controller.AudioController.Next | src/utils/AudioController.js:142-147 | with a current track and a non-empty list, the track at `NextIndex` is played; otherwise nothing changes |
| Controller.AudioController.Previous | src/utils/AudioController.js:150-161 | under 3 s the track at `PrevIndex` is played; from 3 s on the position becomes 0 with cursor and source kept; with no current track or an empty list nothing changes |
| Controller.AudioController.PlayTrackAtIndex | src/utils/AudioController.js:164-178 | an index outside the list changes nothing; otherwise the cursor becomes the index, and only a track with a preview loads that preview, starts and notifies track-change subscribers |
| Controller.AudioController.CurrentTrack | src/utils/AudioController.js:181-184 | a track exactly when the cursor is an index of the list, and then the track under the cursor |
| Controller.AudioController.GetTime | src/utils/AudioController.js:187-195 | the position; duration and percentage are 0 without a duration; otherwise percentage × duration = position × 100, within [0, 100] when the position is within the duration |
| Controller.AudioController.SeekTo | src/utils/AudioController.js:198-202 | with a duration only the position changes, to that share of the duration, and in exact arithmetic the percentage read back is the one requested; without one nothing changes |
| Controller.AudioController.SetVolume | src/utils/AudioController.js:205-208 | the stored volume is the clamped input and nothing else changes; the invariant keeps the volume in [0, 1] |
| Controller.AudioController.On | src/utils/AudioController.js:211-216 | a known event's list gets the callback appended; an unknown event name leaves every list unchanged |
| Controller.AudioController.Off | src/utils/AudioController.js:218-223 | the event's list becomes its filtered copy, so the callback is no longer subscribed; other lists are untouched |
| Controller.AudioController.Broadcast | src/utils/AudioController.js:225-237 | each subscriber of the list is called once, in subscription order, with the same event |
| Controller.AudioController.NotifyTrackChange | src/utils/AudioController.js:225-228 | the track-change subscribers receive the current track and the cursor |
| Controller.AudioController.NotifyPlayStateChange | src/utils/AudioController.js:230-232 | the play-state subscribers receive `isPlaying` |
| Controller.AudioController.NotifyTimeUpdate | src/utils/AudioController.js:234-237 | the time-update subscribers receive the result of `getTime()` |
| Controller.AudioController.HandlePlay | src/utils/AudioController.js:48-51 | `isPlaying` becomes true and is announced |
| Controller.AudioController.HandlePause | src/utils/AudioController.js:53-56 | `isPlaying` becomes false and is announced |
| Controller.AudioController.HandleEnded | src/utils/AudioController.js:58-66 | called on an element that has paused itself at the end: `isPlaying` becomes false and is announced; before the last track the cursor moves to cursor + 1 and that track plays; at the last track, or with no current track, nothing else changes and the element stays paused |
| Controller.AudioController.HandleTimeUpdate | src/utils/AudioController.js:68-70 | the time-update subscribers receive `getTime()` |
| PlayerControls.StateOf | src/components/PlayerControls/PlayerControls.jsx:35-47 | playing is the negation of paused; duration and percentage are 0 without a duration; otherwise percentage × duration = position × 100, within [0, 100] |
| PlayerControls.GetCurrentTrack | src/components/PlayerControls/PlayerControls.jsx:55-71 | null for an empty source; any result is a listed track that matches exactly or by file name; an exact match anywhere wins over file-name matches; null only when no track matches either way |
| PlayerControls.FirstExactMatchWins | src/components/PlayerControls/PlayerControls.jsx:59-60 | among exact matches the first in list order is returned |
| PlayerControls.FirstNameMatchWins | src/components/PlayerControls/PlayerControls.jsx:63-70 | with no exact match, the first track with the same file name is returned |
| PlayerControls.FoundUnderOtherPrefix | src/components/PlayerControls/PlayerControls.jsx:55-71 | in any queue with no exact match, a track whose path is `dir/name` is returned for the source `prefix/name` when no earlier track has the file name `name`, whatever `dir` and `prefix` are |
| PlayerControls.FormatTime | src/components/PlayerControls/PlayerControls.jsx:112-113 | NaN and Infinity are shown as "0:00" |
| PlayerControls.FormatTimeMinutesSeconds | src/components/PlayerControls/PlayerControls.jsx:114-116 | for s ≥ 0 the text is `m:ss`: `m` = floor(s/60), `ss` = the remaining whole seconds, below 60 and padded to two digits, with 60·m + ss = floor(s) |
| PlayerControls.WholeSecondsSplit | src/components/PlayerControls/PlayerControls.jsx:114-115 | for s ≥ 0, floor(s % 60) is below 60 and equals floor(s) minus 60·floor(s/60) |
| PlayerControls.TwoDigits | src/components/PlayerControls/PlayerControls.jsx:115 | a seconds value below 60, padded, is exactly two digits that read back as the value |
| PlayerControls.TogglePlay | src/components/PlayerControls/PlayerControls.jsx:121-135 | paused with no source and a non-empty list: plays the first track's preview, or its path without one; otherwise paused: resumes; playing: pauses |
| PlayerControls.PlayFirstTrack | src/components/PlayerControls/PlayerControls.jsx:183-188 | with a non-empty list, plays the first track's preview, or its path without one, whatever the element is doing (so a playing unlisted source is replaced, not paused); with an empty list nothing changes |
| PlayerControls.Prev | src/components/PlayerControls/PlayerControls.jsx:145-155 | over 3 s, and at exactly 3 s with a current track, the track restarts; under 3 s the previous track plays; with no current track at ≤ 3 s nothing changes |
| PlayerControls.SetVolume | src/components/PlayerControls/PlayerControls.jsx:162-166 | the slider value over 100 is stored, which equals the engine's clamped value |

## Left out

- Web Audio graph: the `AudioContext`, the `AnalyserNode`, the frequency snapshot and the `gsap` ticker (`setup` and `tick`). These are browser and library calls with no logic of the engine's own.
- `detectBPM` and its "loadeddata" listener: asynchronous fetch and decode plus an external library. The source has no staleness guard to model, and the BPM value is not modelled.
- Listener registration (`addEventListener`, and the React effects that subscribe the component). Only the handler bodies are modelled, as methods the platform would call.
- `audio.play()` returns a promise. Its rejection (an unplayable source) is only logged by the code and is not modelled: `play()` always unpauses.
- The element resolves `src` to an absolute, percent-encoded URL; the model stores `src` exactly as assigned (assigning `undefined` stores the text "undefined"). Two consequences for relative paths such as "/Benny Benassi - Satisfaction.mp3" are not captured. First, `play(path)` called again while paused: `audio.src === src` (src/utils/AudioController.js:82) is false in the program, so the track reloads at 0, where the model resumes at the old position. Second, the controls' `getCurrentTrack`: `t.path === src` (src/components/PlayerControls/PlayerControls.jsx:59) never matches a relative path, and the file-name rule (lines 63-66) fails too when the name contains characters the URL encodes (such as spaces). The program then returns null, where the model finds the track.
- Controller.AudioController.SeekTo: the element is a record with exact reals. Two behaviours of a real element are not modelled. First, it clamps an assigned `currentTime` to [0, duration]: `seekTo(-20)` lands at 0, and `seekTo(150)` ends the track, which fires "ended". Second, floating-point rounding makes the percentage read back only approximately the requested one.
- The element's own events at the end of a track are not modelled beyond its final state (`Media.End`: paused at the duration). The "timeupdate" it fires there is left out.
- Media durations of Infinity (live streams), NaN volumes and non-finite seek targets are not modelled. Durations are either unknown or a real number.
- Callbacks are modelled by their identity only. Their effects, including a callback that calls back into the engine during a notification, are not modelled.
- `on` and `off` return `this` for chaining. The model's methods return nothing.
- Event names that are properties of `Object.prototype` (such as "toString") are not modelled. The three callback lists form a map with exactly three keys.
- The controller's constructor includes `setup()`, so the audio element always exists. The "no audio yet" guards in the controls are not modelled.
- JSX rendering and `controls.next` (a plain call of `next()`) are not modelled separately.
- `controls.seek` is left out: its percentage comes from click geometry (`getBoundingClientRect`).
- `PlayerControls.FormatTime`: numbers whose printed form uses exponent notation (1e21 s and beyond) are printed as plain digits in the model.
- `PlayerControls.SetVolume` takes the slider value as an integer from 0 to 100. The range input guarantees this, since it has min 0, max 100 and step 1.
- Tracks are non-null objects with an optional id, preview and path. The `track &&` guard in `playTrackAtIndex` therefore always passes. Display fields are not modelled.
- The visual components (the `Heart` and `Cover` meshes), the search list, the store, the static track list and the app layout are not part of this model.

=== FILE: controller.dfy ===
/**
 * The playback engine `AudioController`: a track queue with a cursor, the
 * transport commands over one audio element, and a publish/subscribe bus
 * with three named callback lists.
 */
module Controller {
  import opened Js
  import opened Media
  import opened Queue

  /** A subscriber function, known only by its identity (`!==` compares references). */
  type Callback = nat

  const OnTrackChange: string := "onTrackChange"
  const OnPlayStateChange: string := "onPlayStateChange"
  const OnTimeUpdate: string := "onTimeUpdate"

  /** The object `getTime()` returns. */
  datatype TimeInfo = TimeInfo(current: real, duration: real, percentage: real)

  /** The arguments a subscriber is called with, one shape per list. */
  datatype Event =
    | TrackChanged(track: Option<Track>, index: int)
    | PlayStateChanged(playing: bool)
    | TimeUpdated(time: TimeInfo)

  /** One call of one subscriber. */
  datatype Delivery = Delivery(callback: Callback, event: Event)

  /** The calls `forEach` makes: each subscriber in list order, with `e`. */
  function Fanout(subscribers: seq<Callback>, e: Event): seq<Delivery> {
    seq(|subscribers|, i requires 0 <= i < |subscribers| => Delivery(subscribers[i], e))
  }

  /** The value `play` gives to `audio.src`: the string itself, or the text
      "undefined" when `src` is undefined. */
  function SrcAttribute(src: Option<string>): string {
    if src.Some? then src.value else "undefined"
  }

  class AudioController {
    var isPlaying: bool
    var currentTrackIndex: int
    var trackList: seq<Track>
    var callbacks: map<string, seq<Callback>>
    var audio: AudioElement
    /** Every subscriber call made so far, in order. */
    var invocations: seq<Delivery>

    /** The engine's invariant: the cursor is -1 or an index it was set to,
        the three callback lists exist, and the volume is within [0, 1]. */
    ghost predicate Valid()
      reads this
    {
      currentTrackIndex >= -1
      && callbacks.Keys == {OnTrackChange, OnPlayStateChange, OnTimeUpdate}
      && 0.0 <= audio.volume <= 1.0
    }

    /** The cursor is "no track" or designates a track of the current list. */
    predicate CursorInRange()
      reads this
    {
      currentTrackIndex == -1 || 0 <= currentTrackIndex < |trackList|
    }

    /** The guard of `next()` and `previous()`: a non-empty list and a current track. */
    predicate CanNavigate()
      reads this
    {
      |trackList| > 0 && currentTrackIndex != -1
    }

    /** The subscribers of `event`; none for an unknown name. */
    function Subscribers(event: string): seq<Callback>
      reads this
    {
      if event in callbacks then callbacks[event] else []
    }

    /** The constructor together with `setup()`: no track, an empty queue,
        three empty callback lists, and a fresh element at volume 0.1. */
    constructor ()
      ensures Valid() && CursorInRange()
      ensures !isPlaying && currentTrackIndex == -1 && trackList == []
      ensures callbacks == map[OnTrackChange := [], OnPlayStateChange := [], OnTimeUpdate := []]
      ensures audio == Fresh && invocations == []
    {
      isPlaying := false;
      currentTrackIndex := -1;
      trackList := [];
      callbacks := map[OnTrackChange := [], OnPlayStateChange := [], OnTimeUpdate := []];
      audio := Fresh;
      invocations := [];
    }

    /** Track `i` has been made current, from element `a0` and call log `log0`:
        the cursor is `i`; if the track has a preview it is loaded and
        started and the track-change subscribers are told, otherwise the
        element and the log are as they were. */
    ghost predicate Selected(i: int, a0: AudioElement, log0: seq<Delivery>)
      reads this
    {
      0 <= i < |trackList| && currentTrackIndex == i
      && if Truthy(trackList[i].preview) then
           audio == Start(Load(a0, trackList[i].preview.value))
           && invocations == log0 + Fanout(Subscribers(OnTrackChange), TrackChanged(Some(trackList[i]), i))
         else
           audio == a0 && invocations == log0
    }

    /** The state `play(src, trackInfo)` leaves, from element `a0`, cursor
        `cursor0` and call log `log0`. */
    ghost predicate Played(src: Option<string>, info: Option<Track>, a0: AudioElement, cursor0: int, log0: seq<Delivery>)
      reads this
    {
      if src == Some(a0.src) && a0.paused then
        // the same source, paused: only resume (when there is a source at all)
        audio == (if a0.src == "" then a0 else Start(a0)) && currentTrackIndex == cursor0 && invocations == log0
      else
        var m := PlayMatch(trackList, src, info);
        audio == Start(Load(a0, SrcAttribute(src)))
        && (m == -1 ==> currentTrackIndex == cursor0 && invocations == log0)
        && (m != -1 ==> currentTrackIndex == m
                        && invocations == log0 + Fanout(Subscribers(OnTrackChange), TrackChanged(Some(trackList[m]), m)))
    }

    /** `setTracks(tracks)`: the list is replaced; the cursor is not touched,
        so it may now lie beyond the end of the new list. */
    method SetTracks(tracks: seq<Track>)
      requires Valid()
      modifies this`trackList
      ensures Valid()
      ensures trackList == tracks
      ensures CursorInRange() <==> currentTrackIndex == -1 || currentTrackIndex < |tracks|
    {
      trackList := tracks;
    }

    /** `play(src, trackInfo)`. */
    method Play(src: Option<string>, trackInfo: Option<Track>)
      requires Valid()
      modifies this`currentTrackIndex, this`audio, this`invocations
      ensures Valid()
      ensures old(CursorInRange()) ==> CursorInRange()
      ensures Played(src, trackInfo, old(audio), old(currentTrackIndex), old(invocations))
    {
      if src == Some(audio.src) && audio.paused {
        ResumePlayback();
        return;
      }
      audio := Load(audio, SrcAttribute(src));
      var i := PlayMatch(trackList, src, trackInfo);
      if i != -1 {
        currentTrackIndex := i;
        NotifyTrackChange();
      }
      audio := Start(audio);
    }

    /** `pausePlayback()`: the element ends up paused; nothing else changes. */
    method PausePlayback()
      requires Valid()
      modifies this`audio
      ensures Valid()
      ensures audio == old(audio).(paused := true)
    {
      if !audio.paused {
        audio := audio.(paused := true);
      }
    }

    /** `resumePlayback()`: a paused element with a source starts playing
        (from 0 if it had played to its end); otherwise nothing changes. */
    method ResumePlayback()
      requires Valid()
      modifies this`audio
      ensures Valid()
      ensures audio.paused <==> old(audio.paused) && old(audio.src) == ""
      ensures old(audio.paused) && old(audio.src) != "" ==> audio == Start(old(audio))
      ensures !(old(audio.paused) && old(audio.src) != "") ==> audio == old(audio)
    {
      if audio.paused && audio.src != "" {
        audio := Start(audio);
      }
    }

    /** `togglePlayPause()`: the paused state flips, except that a paused
        element without a source stays paused; resuming an element that has
        played to its end starts it again from 0. */
    method TogglePlayPause()
      requires Valid()
      modifies this`audio
      ensures Valid()
      ensures audio.paused <==> !old(audio.paused) || old(audio.src) == ""
      ensures old(audio.paused) && old(audio.src) != "" ==> audio == Start(old(audio))
      ensures old(audio.paused) && old(audio.src) == "" ==> audio == old(audio)
      ensures !old(audio.paused) ==> audio == old(audio).(paused := true)
    {
      if audio.paused {
        ResumePlayback();
      } else {
        PausePlayback();
      }
    }

    /** `next()`: with a current track, the track after it, wrapping from the
        last to the first; otherwise nothing changes. */
    method Next()
      requires Valid()
      modifies this`currentTrackIndex, this`audio, this`invocations
      ensures Valid()
      ensures old(CursorInRange()) ==> CursorInRange()
      ensures old(CanNavigate()) ==>
        Selected(NextIndex(old(currentTrackIndex), |trackList|), old(audio), old(invocations))
      ensures !old(CanNavigate()) ==>
        currentTrackIndex == old(currentTrackIndex) && audio == old(audio) && invocations == old(invocations)
    {
      if |trackList| == 0 || currentTrackIndex == -1 {
        return;
      }
      PlayTrackAtIndex(NextIndex(currentTrackIndex, |trackList|));
    }

    /** `previous()`: with a current track, under 3 seconds in it goes to the
        track before it (wrapping from the first to the last); from 3 seconds
        on it restarts the current track. Otherwise nothing changes. */
    method Previous()
      requires Valid()
      modifies this`currentTrackIndex, this`audio, this`invocations
      ensures Valid()
      ensures old(CursorInRange()) ==> CursorInRange()
      ensures old(CanNavigate()) && old(audio.currentTime) < 3.0 ==>
        Selected(PrevIndex(old(currentTrackIndex), |trackList|), old(audio), old(invocations))
      ensures old(CanNavigate()) && old(audio.currentTime) >= 3.0 ==>
        audio == old(audio).(currentTime := 0.0)
        && currentTrackIndex == old(currentTrackIndex) && invocations == old(invocations)
      ensures !old(CanNavigate()) ==>
        currentTrackIndex == old(currentTrackIndex) && audio == old(audio) && invocations == old(invocations)
    {
      if |trackList| == 0 || currentTrackIndex == -1 {
        return;
      }
      if audio.currentTime < 3.0 {
        PlayTrackAtIndex(PrevIndex(currentTrackIndex, |trackList|));
      } else {
        audio := audio.(currentTime := 0.0);
      }
    }

    /** `playTrackAtIndex(index)`: an index outside the list changes nothing;
        otherwise that track becomes current. */
    method PlayTrackAtIndex(index: int)
      requires Valid()
      modifies this`currentTrackIndex, this`audio, this`invocations
      ensures Valid()
      ensures old(CursorInRange()) ==> CursorInRange()
      ensures 0 <= index < |trackList| ==> Selected(index, old(audio), old(invocations))
      ensures !(0 <= index < |trackList|) ==>
        currentTrackIndex == old(currentTrackIndex) && audio == old(audio) && invocations == old(invocations)
    {
      if index < 0 || index >= |trackList| {
        return;
      }
      currentTrackIndex := index;
      var track := trackList[index];
      if Truthy(track.preview) {
        audio := Start(Load(audio, track.preview.value));
        NotifyTrackChange();
      }
    }

    /** `getCurrentTrack()`: the track under the cursor; null or undefined
        (None) when there is none. */
    function CurrentTrack(): (r: Option<Track>)
      reads this
      ensures r.Some? <==> 0 <= currentTrackIndex < |trackList|
      ensures r.Some? ==> r.value == trackList[currentTrackIndex]
    {
      if currentTrackIndex == -1 || |trackList| == 0 then None
      else if 0 <= currentTrackIndex < |trackList| then Some(trackList[currentTrackIndex])
      else None
    }

    /** `getTime()`: the position, the duration (0 while unknown) and the
        elapsed share of the duration in percent. */
    function GetTime(): (t: TimeInfo)
      reads this
      ensures t.current == audio.currentTime
      ensures !HasDuration(audio.duration) ==> t.duration == 0.0 && t.percentage == 0.0
      ensures HasDuration(audio.duration) ==>
        t.duration == audio.duration.seconds && t.percentage * t.duration == t.current * 100.0
      ensures 0.0 <= t.current <= t.duration ==> 0.0 <= t.percentage <= 100.0
    {
      TimeInfo(audio.currentTime, DurationOrZero(audio.duration), Percentage(audio.currentTime, audio.duration))
    }

    /** `seekTo(percentage)`: with a known duration, the position becomes that
        share of it, so reading the percentage back gives `percentage`; with
        none, nothing changes. The percentage is not clamped. */
    method SeekTo(percentage: real)
      requires Valid()
      modifies this`audio
      ensures Valid()
      ensures HasDuration(old(audio.duration)) ==>
        audio == old(audio).(currentTime := SeekPosition(percentage, old(audio.duration.seconds)))
        && GetTime().percentage == percentage
      ensures !HasDuration(old(audio.duration)) ==> audio == old(audio)
    {
      if HasDuration(audio.duration) {
        audio := audio.(currentTime := SeekPosition(percentage, audio.duration.seconds));
        SeekRoundTrip(percentage, audio.duration);
      }
    }

    /** `setVolume(volume)`: the stored volume is `volume` clamped to [0, 1]. */
    method SetVolume(volume: real)
      requires Valid()
      modifies this`audio
      ensures Valid()
      ensures audio == old(audio).(volume := Clamp(volume))
    {
      audio := audio.(volume := Clamp(volume));
    }

    /** `on(event, callback)`: appended to a known list; an unknown event name
        is ignored. */
    method On(event: string, callback: Callback)
      requires Valid()
      modifies this`callbacks
      ensures Valid()
      ensures event in old(callbacks) ==> callbacks == old(callbacks)[event := old(callbacks)[event] + [callback]]
      ensures event !in old(callbacks) ==> callbacks == old(callbacks)
    {
      if event in callbacks {
        callbacks := callbacks[event := callbacks[event] + [callback]];
      }
    }

    /** `off(event, callback)`: every occurrence of `callback` leaves that
        list, the others stay in order; other lists are untouched. */
    method Off(event: string, callback: Callback)
      requires Valid()
      modifies this`callbacks
      ensures Valid()
      ensures event in old(callbacks) ==> callbacks == old(callbacks)[event := Without(old(callbacks)[event], callback)]
      ensures event !in old(callbacks) ==> callbacks == old(callbacks)
      ensures callback !in Subscribers(event)
    {
      if event in callbacks {
        callbacks := callbacks[event := Without(callbacks[event], callback)];
      }
    }

    /** Calls every subscriber of `event`, in subscription order, with `e`. */
    method Broadcast(event: string, e: Event)
      requires Valid()
      modifies this`invocations
      ensures Valid()
      ensures invocations == old(invocations) + Fanout(Subscribers(event), e)
    {
      var subscribers := Subscribers(event);
      for i := 0 to |subscribers|
        invariant invocations == old(invocations) + Fanout(subscribers[..i], e)
      {
        invocations := invocations + [Delivery(subscribers[i], e)];
      }
      assert subscribers[..|subscribers|] == subscribers;
    }

    /** `notifyTrackChange()`: the current track and the cursor. */
    method NotifyTrackChange()
      requires Valid()
      modifies this`invocations
      ensures Valid()
      ensures invocations == old(invocations)
        + Fanout(Subscribers(OnTrackChange), TrackChanged(CurrentTrack(), currentTrackIndex))
    {
      Broadcast(OnTrackChange, TrackChanged(CurrentTrack(), currentTrackIndex));
    }

    /** `notifyPlayStateChange()`: the `isPlaying` flag. */
    method NotifyPlayStateChange()
      requires Valid()
      modifies this`invocations
      ensures Valid()
      ensures invocations == old(invocations) + Fanout(Subscribers(OnPlayStateChange), PlayStateChanged(isPlaying))
    {
      Broadcast(OnPlayStateChange, PlayStateChanged(isPlaying));
    }

    /** `notifyTimeUpdate()`: the result of `getTime()`. */
    method NotifyTimeUpdate()
      requires Valid()
      modifies this`invocations
      ensures Valid()
      ensures invocations == old(invocations) + Fanout(Subscribers(OnTimeUpdate), TimeUpdated(GetTime()))
    {
      Broadcast(OnTimeUpdate, TimeUpdated(GetTime()));
    }

    /** The "play" listener. */
    method HandlePlay()
      requires Valid()
      modifies this`isPlaying, this`invocations
      ensures Valid()
      ensures isPlaying
      ensures invocations == old(invocations) + Fanout(Subscribers(OnPlayStateChange), PlayStateChanged(true))
    {
      isPlaying := true;
      NotifyPlayStateChange();
    }

    /** The "pause" listener. */
    method HandlePause()
      requires Valid()
      modifies this`isPlaying, this`invocations
      ensures Valid()
      ensures !isPlaying
      ensures invocations == old(invocations) + Fanout(Subscribers(OnPlayStateChange), PlayStateChanged(false))
    {
      isPlaying := false;
      NotifyPlayStateChange();
    }

    /** The "timeupdate" listener. */
    method HandleTimeUpdate()
      requires Valid()
      modifies this`invocations
      ensures Valid()
      ensures invocations == old(invocations) + Fanout(Subscribers(OnTimeUpdate), TimeUpdated(GetTime()))
    {
      NotifyTimeUpdate();
    }

    /** The "ended" listener: playing stops and is announced; then, when the
        current track is not the last one, the next track (at cursor + 1, no
        wraparound) is played. After the last track the element stays paused.
        The element has already paused itself when it fires "ended". */
    method HandleEnded()
      requires Valid() && audio.paused
      modifies this`isPlaying, this`currentTrackIndex, this`audio, this`invocations
      ensures Valid()
      ensures old(CursorInRange()) ==> CursorInRange()
      ensures !isPlaying
      ensures !(0 <= old(currentTrackIndex) < |trackList| - 1 && Truthy(trackList[old(currentTrackIndex) + 1].preview)) ==> audio.paused
      ensures var log := old(invocations) + Fanout(Subscribers(OnPlayStateChange), PlayStateChanged(false));
        if 0 <= old(currentTrackIndex) < |trackList| - 1 then
          Selected(old(currentTrackIndex) + 1, old(audio), log)
        else
          currentTrackIndex == old(currentTrackIndex) && audio == old(audio) && invocations == log
    {
      isPlaying := false;
      NotifyPlayStateChange();
      if currentTrackIndex < |trackList| - 1 {
        Next();
      }
    }
  }
}

=== FILE: js.dfy ===
/**
 * The JavaScript values and built-ins that the player's code relies on:
 * `undefined`/`null`, truthiness of optional strings, the non-finite numbers,
 * `Array.prototype.findIndex`/`find`/`filter` and the `%` operator.
 */
module Js {

  /** A value that may be `undefined` or `null` (None) or present (Some). */
  datatype Option<+T> = None | Some(value: T)

  /** JavaScript truthiness of an optional string: present and not "". */
  predicate Truthy(s: Option<string>) {
    s.Some? && s.value != ""
  }

  /** A JavaScript number: the finite ones are modelled as reals. */
  datatype Number = NaN | Infinity | NegativeInfinity | Finite(value: real)

  /** The quotient of a finite number truncated toward zero, as JavaScript's
      `%` takes it: the whole number next to `x` on the side of zero. */
  function Trunc(x: real): (r: int)
    ensures x >= 0.0 ==> 0 <= r && r as real <= x < r as real + 1.0
    ensures x < 0.0 ==> r <= 0 && r as real - 1.0 < x <= r as real
  {
    if x >= 0.0 then x.Floor else -((-x).Floor)
  }

  /** `x % 60` on a finite number, the only remainder the player takes: the
      remainder of the division truncated toward zero, so it has the sign of
      `x` (unlike Dafny's `%`, which is never negative). */
  function Remainder60(x: real): (r: real)
    ensures x >= 0.0 ==> 0.0 <= r < 60.0
    ensures x < 0.0 ==> -60.0 < r <= 0.0
    ensures (x - r) / 60.0 == ((x - r) / 60.0).Floor as real
  {
    var q := Trunc(x / 60.0);
    assert (60.0 * (q as real)) / 60.0 == q as real;
    assert (q as real).Floor == q;
    x - 60.0 * (q as real)
  }

  /** `s.findIndex(p)`: the first index whose element satisfies `p`, or -1. */
  function FindIndex<T>(s: seq<T>, p: T -> bool): (r: int)
    ensures -1 <= r < |s|
    ensures r == -1 <==> forall i | 0 <= i < |s| :: !p(s[i])
    ensures r != -1 ==> p(s[r]) && forall i | 0 <= i < r :: !p(s[i])
  {
    if s == [] then -1
    else if p(s[0]) then 0
    else
      var k := FindIndex(s[1..], p);
      if k == -1 then -1 else k + 1
  }

  /** `s.find(p)`: the first element satisfying `p`, or undefined. */
  function Find<T>(s: seq<T>, p: T -> bool): Option<T> {
    var i := FindIndex(s, p);
    if i == -1 then None else Some(s[i])
  }

  /** `s.filter(y => y !== x)`: every occurrence of `x` removed. */
  function Without<T(==)>(s: seq<T>, x: T): (r: seq<T>)
    ensures x !in r
    ensures multiset(r) == multiset(s)[x := 0]
  {
    if s == [] then []
    else
      assert s == [s[0]] + s[1..];
      if s[0] == x then Without(s[1..], x) else [s[0]] + Without(s[1..], x)
  }

  /** Filtering distributes over concatenation: the kept elements stay in
      their original order. */
  lemma {:induction false} WithoutAppend<T>(a: seq<T>, b: seq<T>, x: T)
    ensures Without(a + b, x) == Without(a, x) + Without(b, x)
  {
    if a == [] {
      assert a + b == b;
    } else {
      assert (a + b)[0] == a[0];
      assert (a + b)[1..] == a[1..] + b;
      WithoutAppend(a[1..], b, x);
    }
  }

  /** Removing an element that is not there changes nothing. */
  lemma {:induction false} WithoutAbsent<T>(s: seq<T>, x: T)
    requires x !in s
    ensures Without(s, x) == s
  {
    if s != [] {
      assert s[0] != x;
      assert x !in s[1..];
      WithoutAbsent(s[1..], x);
    }
  }

  /** Removing twice is removing once. */
  lemma WithoutIdempotent<T>(s: seq<T>, x: T)
    ensures Without(Without(s, x), x) == Without(s, x)
  {
    WithoutAbsent(Without(s, x), x);
  }
}

=== FILE: media.dfy ===
/**
 * The browser audio element, as a plain record of the five properties the
 * player reads and writes, and the arithmetic the player does on them:
 * elapsed percentage, seeking by percentage and volume clamping.
 */
module Media {

  /** `audio.duration`: NaN until the metadata has loaded, then a number of seconds. */
  datatype Duration = Unknown | Known(seconds: real)

  /** JavaScript truthiness of `audio.duration`: known and not zero. */
  predicate HasDuration(d: Duration) {
    d.Known? && d.seconds != 0.0
  }

  /** `audio.duration || 0`. */
  function DurationOrZero(d: Duration): real {
    if HasDuration(d) then d.seconds else 0.0
  }

  datatype AudioElement = AudioElement(
    src: string,
    paused: bool,
    currentTime: real,
    duration: Duration,
    volume: real)

  /** The element right after `new Audio()` and `audio.volume = 0.1`. */
  const Fresh := AudioElement("", true, 0.0, Unknown, 0.1)

  /** Assigning `audio.src`: the element starts loading the new resource,
      so it is paused at position 0 and its duration is not yet known. */
  function Load(a: AudioElement, src: string): (b: AudioElement)
    ensures b.src == src && b.paused && b.currentTime == 0.0 && b.duration == Unknown
    ensures b.volume == a.volume
  {
    a.(src := src, paused := true, currentTime := 0.0, duration := Unknown)
  }

  /** Playback has ended: the position has reached the end of a resource
      whose duration is known. */
  predicate Ended(a: AudioElement) {
    a.duration.Known? && a.currentTime >= a.duration.seconds
  }

  /** `audio.play()`: the element is no longer paused, and an element whose
      playback has ended starts again from position 0. */
  function Start(a: AudioElement): (b: AudioElement)
    ensures !Ended(a) ==> b.currentTime == a.currentTime
    ensures Ended(a) ==> b.currentTime == 0.0
    ensures !b.paused && b.(paused := a.paused, currentTime := a.currentTime) == a
  {
    a.(paused := false, currentTime := if Ended(a) then 0.0 else a.currentTime)
  }

  /** Playback reaching the end of the resource: the position is at the
      duration and the element pauses (it fires "pause" before "ended"). */
  function End(a: AudioElement): (b: AudioElement)
    requires a.duration.Known?
    ensures Ended(b) && b.paused
    ensures b.(paused := a.paused, currentTime := a.currentTime) == a
  {
    a.(paused := true, currentTime := a.duration.seconds)
  }

  /** Playing an element that has played to its end restarts it from 0. */
  lemma RestartAfterEnd(a: AudioElement)
    requires a.duration.Known?
    ensures var b := Start(End(a));
      !b.paused && b.currentTime == 0.0 && b.src == a.src && b.duration == a.duration
  {
  }

  /** `(currentTime / duration) * 100` when the duration is truthy, else 0. */
  function Percentage(currentTime: real, d: Duration): (p: real)
    ensures !HasDuration(d) ==> p == 0.0
    ensures HasDuration(d) ==> p * d.seconds == currentTime * 100.0
    ensures d.Known? && 0.0 <= currentTime <= d.seconds ==> 0.0 <= p <= 100.0
  {
    if HasDuration(d) then currentTime / d.seconds * 100.0 else 0.0
  }

  /** `(percentage / 100) * duration`: the position a percentage seeks to. */
  function SeekPosition(percentage: real, duration: real): real {
    percentage / 100.0 * duration
  }

  /** Seeking to a percentage and reading the percentage back gives it again. */
  lemma SeekRoundTrip(percentage: real, d: Duration)
    requires HasDuration(d)
    ensures Percentage(SeekPosition(percentage, d.seconds), d) == percentage
  {
    var t := SeekPosition(percentage, d.seconds);
    var p := Percentage(t, d);
    assert p * d.seconds == percentage * d.seconds;
  }

  /** `Math.max(0, Math.min(1, v))`. */
  function Clamp(v: real): (r: real)
    ensures 0.0 <= r <= 1.0
    ensures 0.0 <= v <= 1.0 ==> r == v
    ensures v < 0.0 ==> r == 0.0
    ensures v > 1.0 ==> r == 1.0
  {
    if v < 0.0 then 0.0 else if v > 1.0 then 1.0 else v
  }
}

=== FILE: player_controls.dfy ===
/**
 * The logic of the player controls component: the state it mirrors from the
 * engine, which queued track is playing, time formatting, and the handlers
 * of the previous, play/pause and volume controls and of the minimal
 * layout's play button.
 */
module PlayerControls {
  import opened Js
  import opened Text
  import opened Media
  import opened Queue
  import opened Controller

  /** The component's copy of the playback state. */
  datatype AudioState = AudioState(isPlaying: bool, currentTime: real, duration: real, percentage: real, src: string)

  /** `updateAudioStateFromController()`: the state read off the element. */
  function StateOf(a: AudioElement): (s: AudioState)
    ensures s.isPlaying == !a.paused && s.src == a.src && s.currentTime == a.currentTime
    ensures !HasDuration(a.duration) ==> s.duration == 0.0 && s.percentage == 0.0
    ensures HasDuration(a.duration) ==>
      s.duration == a.duration.seconds && s.percentage * s.duration == s.currentTime * 100.0
    ensures 0.0 <= s.currentTime <= s.duration ==> 0.0 <= s.percentage <= 100.0
  {
    AudioState(!a.paused, a.currentTime, DurationOrZero(a.duration), Percentage(a.currentTime, a.duration), a.src)
  }

  /** `t.preview === src || t.path === src`. */
  predicate ExactMatch(t: Track, src: string) {
    t.preview == Some(src) || t.path == Some(src)
  }

  /** A truthy preview or path of `t` whose last '/' segment is `name`. */
  predicate NameMatch(t: Track, name: string) {
    (Truthy(t.preview) && LastSegment(t.preview.value) == name)
    || (Truthy(t.path) && LastSegment(t.path.value) == name)
  }

  /** `getCurrentTrack()`: the first track whose preview or path is the
      loaded source, else the first whose file name is the source's file
      name, else null; null too when nothing is loaded. */
  function GetCurrentTrack(src: string, tracks: seq<Track>): (r: Option<Track>)
    ensures src == "" ==> r == None
    ensures r.Some? ==> r.value in tracks && (ExactMatch(r.value, src) || NameMatch(r.value, LastSegment(src)))
    ensures src != "" && (exists t | t in tracks :: ExactMatch(t, src)) ==> r.Some? && ExactMatch(r.value, src)
    ensures src != "" && r.None? ==>
      forall t | t in tracks :: !ExactMatch(t, src) && !NameMatch(t, LastSegment(src))
  {
    if src == "" then None
    else
      var exact := Find(tracks, t => ExactMatch(t, src));
      if exact.Some? then exact else Find(tracks, t => NameMatch(t, LastSegment(src)))
  }

  /** Among exact matches, the first in list order wins. */
  lemma FirstExactMatchWins(src: string, tracks: seq<Track>, i: nat)
    requires src != "" && i < |tracks| && ExactMatch(tracks[i], src)
    requires forall j | 0 <= j < i :: !ExactMatch(tracks[j], src)
    ensures GetCurrentTrack(src, tracks) == Some(tracks[i])
  {
    var k := FindIndex(tracks, t => ExactMatch(t, src));
    assert k == i;
  }

  /** Without an exact match, the first track with the same file name wins. */
  lemma FirstNameMatchWins(src: string, tracks: seq<Track>, i: nat)
    requires src != "" && forall t | t in tracks :: !ExactMatch(t, src)
    requires i < |tracks| && NameMatch(tracks[i], LastSegment(src))
    requires forall j | 0 <= j < i :: !NameMatch(tracks[j], LastSegment(src))
    ensures GetCurrentTrack(src, tracks) == Some(tracks[i])
  {
    var k := FindIndex(tracks, t => NameMatch(t, LastSegment(src)));
    assert k == i;
  }

  /** A track whose path names file `name` in some directory is still
      recognised when the element reports the source under another prefix,
      provided the element reports the file name `name` unchanged (it is
      not when resolving the URL percent-encodes it), no track matches that
      source exactly and no earlier track has the same file name. */
  lemma FoundUnderOtherPrefix(tracks: seq<Track>, i: nat, dir: string, prefix: string, name: string)
    requires '/' !in name
    requires i < |tracks| && tracks[i].path == Some(dir + "/" + name)
    requires forall t | t in tracks :: !ExactMatch(t, prefix + "/" + name)
    requires forall j | 0 <= j < i :: !NameMatch(tracks[j], name)
    ensures GetCurrentTrack(prefix + "/" + name, tracks) == Some(tracks[i])
  {
    LastSegmentOfPath(dir, name);
    LastSegmentOfPath(prefix, name);
    FirstNameMatchWins(prefix + "/" + name, tracks, i);
  }

  /** `formatTime(seconds)`: minutes, a colon, and the seconds padded to two
      digits; "0:00" for NaN and Infinity. */
  function FormatTime(seconds: Number): (r: string)
    ensures seconds == NaN || seconds == Infinity ==> r == "0:00"
  {
    match seconds
    case NaN => "0:00"
    case Infinity => "0:00"
    // Math.floor(-Infinity / 60) prints as "-Infinity"; -Infinity % 60 is NaN
    case NegativeInfinity => "-Infinity:NaN"
    case Finite(s) =>
      IntToString((s / 60.0).Floor) + ":" + PadStart(IntToString(Remainder60(s).Floor), 2, '0')
  }

  /** For a non-negative time, the text is `m:ss`: `m` the whole minutes and
      `ss` the remaining whole seconds, below 60 and padded to two digits
      (`TwoDigits` reads them back), so that `m` minutes and `ss` seconds
      are the whole seconds of the time. */
  lemma FormatTimeMinutesSeconds(s: real)
    requires s >= 0.0
    ensures var m := (s / 60.0).Floor;
      var k := s.Floor - 60 * m;
      && m >= 0 && 0 <= k < 60
      && FormatTime(Finite(s)) == NatToString(m) + ":" + PadStart(NatToString(k), 2, '0')
  {
    var m := (s / 60.0).Floor;
    var k := WholeSecondsSplit(s);
    assert IntToString(m) == NatToString(m);
    assert IntToString(Remainder60(s).Floor) == NatToString(k);
  }

  /** The seconds part `Math.floor(s % 60)` of a non-negative time is the
      whole seconds left after the whole minutes `Math.floor(s / 60)`. */
  lemma WholeSecondsSplit(s: real) returns (k: nat)
    requires s >= 0.0
    ensures (s / 60.0).Floor >= 0
    ensures k < 60 && Remainder60(s).Floor == k
    ensures 60 * (s / 60.0).Floor + k == s.Floor
  {
    var m := (s / 60.0).Floor;
    assert 60 * m <= s.Floor < 60 * m + 60;
    k := s.Floor - 60 * m;
    assert Remainder60(s) == s - 60.0 * (m as real);
  }

  /** A number below 60 padded to two digits reads back as itself. */
  lemma TwoDigits(k: nat)
    requires k < 60
    ensures var ss := PadStart(NatToString(k), 2, '0');
      |ss| == 2 && IsDigits(ss) && DigitsValue(ss) == k
  {
    var ks := NatToString(k);
    var ss := PadStart(ks, 2, '0');
    NatToStringRoundTrip(k);
    if k < 10 {
      assert ss == ['0'] + ks;
      assert ss[..1] == ['0'];
    } else {
      assert ss == ks;
    }
  }

  /** `firstTrack.preview || firstTrack.path`. */
  function FirstSource(t: Track): Option<string> {
    if Truthy(t.preview) then t.preview else t.path
  }

  /** `controls.togglePlay`: while paused with nothing loaded and a non-empty
      list, play the first track's source; while paused otherwise, resume;
      while playing, pause. */
  method TogglePlay(c: AudioController, tracks: seq<Track>)
    requires c.Valid()
    modifies c`currentTrackIndex, c`audio, c`invocations
    ensures c.Valid()
    ensures old(c.audio.paused) && old(c.audio.src) == "" && |tracks| > 0 ==>
      c.Played(FirstSource(tracks[0]), None, old(c.audio), old(c.currentTrackIndex), old(c.invocations))
    ensures old(c.audio.paused) && !(old(c.audio.src) == "" && |tracks| > 0) ==>
      c.audio == (if old(c.audio.src) == "" then old(c.audio) else Start(old(c.audio)))
      && c.currentTrackIndex == old(c.currentTrackIndex) && c.invocations == old(c.invocations)
    ensures !old(c.audio.paused) ==>
      c.audio == old(c.audio).(paused := true)
      && c.currentTrackIndex == old(c.currentTrackIndex) && c.invocations == old(c.invocations)
  {
    if c.audio.paused {
      if c.audio.src == "" && |tracks| > 0 {
        c.Play(FirstSource(tracks[0]), None);
      } else {
        c.ResumePlayback();
      }
    } else {
      c.PausePlayback();
    }
  }

  /** The play button of the minimal layout, shown while no queued track is
      recognised as loaded: with a non-empty list it plays the first track's
      preview or path, whatever the element is doing; otherwise nothing. */
  method PlayFirstTrack(c: AudioController, tracks: seq<Track>)
    requires c.Valid()
    modifies c`currentTrackIndex, c`audio, c`invocations
    ensures c.Valid()
    ensures |tracks| > 0 ==>
      c.Played(FirstSource(tracks[0]), None, old(c.audio), old(c.currentTrackIndex), old(c.invocations))
    ensures |tracks| == 0 ==>
      c.audio == old(c.audio) && c.currentTrackIndex == old(c.currentTrackIndex) && c.invocations == old(c.invocations)
  {
    if |tracks| > 0 {
      c.Play(FirstSource(tracks[0]), None);
    }
  }

  /** `controls.prev`: past 3 seconds restart the track, otherwise ask the
      engine for the previous track. Since the engine itself restarts from 3
      seconds on, the combined effect restarts at 3 seconds or more and goes
      back under 3 seconds (when there is a current track). */
  method Prev(c: AudioController)
    requires c.Valid()
    modifies c`currentTrackIndex, c`audio, c`invocations
    ensures c.Valid()
    ensures old(c.audio.currentTime) > 3.0 || (old(c.audio.currentTime) == 3.0 && old(c.CanNavigate())) ==>
      c.audio == old(c.audio).(currentTime := 0.0)
      && c.currentTrackIndex == old(c.currentTrackIndex) && c.invocations == old(c.invocations)
    ensures old(c.audio.currentTime) < 3.0 && old(c.CanNavigate()) ==>
      c.Selected(PrevIndex(old(c.currentTrackIndex), |c.trackList|), old(c.audio), old(c.invocations))
    ensures old(c.audio.currentTime) <= 3.0 && !old(c.CanNavigate()) ==>
      c.audio == old(c.audio) && c.currentTrackIndex == old(c.currentTrackIndex) && c.invocations == old(c.invocations)
  {
    if c.audio.currentTime > 3.0 {
      c.audio := c.audio.(currentTime := 0.0);
    } else {
      c.Previous();
    }
  }

  /** `controls.setVolume`: the slider's 0..100 value over 100, which is the
      value the engine's clamping `setVolume` would store. */
  method SetVolume(c: AudioController, value: int)
    requires c.Valid() && 0 <= value <= 100
    modifies c`audio
    ensures c.Valid()
    ensures c.audio == old(c.audio).(volume := Clamp(value as real / 100.0))
  {
    c.audio := c.audio.(volume := value as real / 100.0);
  }
}

=== FILE: queue.dfy ===
/**
 * The track queue of the playback engine: the track descriptors, how a
 * requested source is matched against the queue, and the cursor arithmetic
 * of next/previous with wraparound.
 */
module Queue {
  import opened Js

  /** A track descriptor as the engine sees it: an optional id and the
      optional `preview` and `path` source URLs (display fields are not used
      by the engine). */
  datatype Track = Track(id: Option<int>, preview: Option<string>, path: Option<string>)

  /** JavaScript truthiness of an optional numeric id: present and not 0. */
  predicate IdTruthy(id: Option<int>) {
    id.Some? && id.value != 0
  }

  /** The test `play(src, trackInfo)` applies to each queued track:
      `track.preview === src || (trackInfo.id && track.id === trackInfo.id)`;
      without `trackInfo` only the preview is compared. An absent preview
      equals an absent `src` (`undefined === undefined`). */
  predicate PlayMatches(t: Track, src: Option<string>, info: Option<Track>) {
    t.preview == src || (info.Some? && IdTruthy(info.value.id) && t.id == info.value.id)
  }

  /** The index `play` moves the cursor to: the first matching track, or -1. */
  function PlayMatch(tracks: seq<Track>, src: Option<string>, info: Option<Track>): (r: int)
    ensures -1 <= r < |tracks|
    ensures r == -1 <==> forall i | 0 <= i < |tracks| :: !PlayMatches(tracks[i], src, info)
    ensures r != -1 ==> PlayMatches(tracks[r], src, info)
    ensures r != -1 ==> forall i | 0 <= i < r :: !PlayMatches(tracks[i], src, info)
  {
    FindIndex(tracks, t => PlayMatches(t, src, info))
  }

  /** `(i + 1) % n`, the cursor after `next()` (JavaScript's `%` agrees with
      Dafny's here, both operands being non-negative). */
  function NextIndex(i: nat, n: nat): (r: nat)
    requires n > 0
    ensures r < n
    ensures i + 1 < n ==> r == i + 1
    ensures i + 1 == n ==> r == 0
  {
    (i + 1) % n
  }

  /** `(i - 1 + n) % n`, the cursor after stepping back in `previous()`. */
  function PrevIndex(i: nat, n: nat): (r: nat)
    requires n > 0
    ensures r < n
    ensures 0 < i <= n ==> r == i - 1
    ensures i == 0 ==> r == n - 1
  {
    (i - 1 + n) % n
  }

  /** Going forward then back, or back then forward, returns to the same track. */
  lemma NextPrevInverse(i: nat, n: nat)
    requires i < n
    ensures PrevIndex(NextIndex(i, n), n) == i
    ensures NextIndex(PrevIndex(i, n), n) == i
  {
  }

  /** The cursor after `k` calls of `next()` from `i`. */
  function Advance(i: nat, n: nat, k: nat): (r: nat)
    requires n > 0
    ensures r < n || (k == 0 && r == i)
  {
    if k == 0 then i else NextIndex(Advance(i, n, k - 1), n)
  }

  /** Within one lap, `k` steps of `next()` from a valid cursor `i` land
      on `i + k`, wrapping past the end of the queue back to its start. */
  lemma {:induction false} AdvanceWithinLap(i: nat, n: nat, k: nat)
    requires i < n && k <= n
    ensures Advance(i, n, k) == if i + k < n then i + k else i + k - n
  {
    if k > 0 {
      AdvanceWithinLap(i, n, k - 1);
    }
  }

  /** `n` steps of `next()` go once around the queue, back to the start. */
  lemma FullCycle(i: nat, n: nat)
    requires i < n
    ensures Advance(i, n, n) == i
  {
    AdvanceWithinLap(i, n, n);
  }

  /** Repeated `next()` reaches every track of the queue within one lap. */
  lemma AdvanceReachesEvery(i: nat, j: nat, n: nat)
    requires i < n && j < n
    ensures Advance(i, n, if i <= j then j - i else j + n - i) == j
  {
    AdvanceWithinLap(i, n, if i <= j then j - i else j + n - i);
  }
}

=== FILE: scenarios.dfy ===
/**
 * Client scenarios that use only the engine's contracts: a three-track
 * session driven by play, the end of a track and previous; resuming a paused
 * source; and navigation on an empty queue.
 */
module Scenarios {
  import opened Js
  import opened Media
  import opened Queue
  import opened Controller
  import PlayerControls

  /** A controller with the queue [a, b, z], one track-change subscriber
      (7), after `play` of the first track. */
  method StartSession(a: Track, b: Track, z: Track) returns (c: AudioController)
    requires a == Track(Some(1), Some("a.mp3"), None)
    requires b == Track(Some(2), Some("b.mp3"), None)
    requires z == Track(Some(3), Some("c.mp3"), None)
    ensures fresh(c) && c.Valid() && c.trackList == [a, b, z]
    ensures c.Subscribers(OnTrackChange) == [7] && c.Subscribers(OnPlayStateChange) == []
    ensures c.currentTrackIndex == 0 && c.audio.src == "a.mp3" && !c.audio.paused && c.audio.currentTime == 0.0
    ensures c.invocations == [Delivery(7, TrackChanged(Some(a), 0))]
  {
    c := new AudioController();
    c.SetTracks([a, b, z]);
    c.On(OnTrackChange, 7);
    c.On("onSomethingElse", 8);
    assert c.Subscribers(OnTrackChange) == [7];
    c.Play(Some("a.mp3"), Some(a));
    assert PlayMatch([a, b, z], Some("a.mp3"), Some(a)) == 0;
  }

  method EndedThenPrevious() {
    var a := Track(Some(1), Some("a.mp3"), None);
    var b := Track(Some(2), Some("b.mp3"), None);
    var z := Track(Some(3), Some("c.mp3"), None);
    var c := StartSession(a, b, z);
    // the track plays to its end: the element pauses and fires "pause", then
    // "ended" (no play-state subscribers), and the next track starts
    c.audio := End(c.audio.(duration := Known(200.0)));
    c.HandlePause();
    c.HandleEnded();
    assert c.currentTrackIndex == 1 && c.audio.src == "b.mp3" && c.audio.currentTime == 0.0;
    assert c.invocations == [Delivery(7, TrackChanged(Some(a), 0)), Delivery(7, TrackChanged(Some(b), 1))];
    // straight away (under 3 seconds) previous goes back to the first track
    c.Previous();
    assert c.currentTrackIndex == 0 && c.audio.src == "a.mp3";
    assert |c.invocations| == 3 && c.invocations[2] == Delivery(7, TrackChanged(Some(a), 0));
  }

  method WrapAroundAndLastTrack() {
    var a := Track(Some(1), Some("a.mp3"), None);
    var b := Track(Some(2), Some("b.mp3"), None);
    var z := Track(Some(3), Some("c.mp3"), None);
    var c := StartSession(a, b, z);
    // under 3 seconds into the first track, previous wraps to the last
    c.Previous();
    assert c.currentTrackIndex == 2 && c.audio.src == "c.mp3";
    // the end of the last track does not wrap: playback stops there
    c.audio := End(c.audio.(duration := Known(200.0)));
    c.HandlePause();
    c.HandleEnded();
    assert c.currentTrackIndex == 2 && c.audio.src == "c.mp3" && |c.invocations| == 2;
    assert c.audio.paused && !c.isPlaying;
    // resuming the ended track starts it again from the beginning
    c.TogglePlayPause();
    assert !c.audio.paused && c.audio.currentTime == 0.0 && c.audio.src == "c.mp3";
    // after unsubscribing, next wraps to the first track silently
    c.Off(OnTrackChange, 7);
    c.Next();
    assert c.currentTrackIndex == 0 && |c.invocations| == 2;
  }

  method ResumeKeepsPosition() {
    var a := Track(Some(1), Some("a.mp3"), None);
    var c := new AudioController();
    c.SetTracks([a]);
    c.Play(Some("a.mp3"), Some(a));
    c.PausePlayback();
    // the element has played for a while and knows its duration
    c.audio := c.audio.(currentTime := 42.0, duration := Known(180.0));
    c.Play(Some("a.mp3"), Some(a));
    assert !c.audio.paused && c.audio.currentTime == 42.0 && c.currentTrackIndex == 0;

    c.SeekTo(50.0);
    assert c.audio.currentTime == 90.0;
    c.SetVolume(150.0);
    assert c.audio.volume == 1.0;
    c.SetVolume(-5.0);
    assert c.audio.volume == 0.0;
  }

  method EmptyQueue() {
    var c := new AudioController();
    c.On(OnTrackChange, 1);
    c.Next();
    c.Previous();
    assert c.currentTrackIndex == -1 && c.audio == Fresh && c.invocations == [];
  }

  /** The play button with nothing loaded plays the first track's preview,
      or its path when it has no preview. */
  method PlayButtonStartsFirstTrack() {
    var a := Track(Some(1), None, Some("/music/a.mp3"));
    var c := new AudioController();
    c.SetTracks([a]);
    PlayerControls.TogglePlay(c, [a]);
    assert PlayMatch([a], Some("/music/a.mp3"), None) == -1;
    assert c.audio.src == "/music/a.mp3" && !c.audio.paused && c.currentTrackIndex == -1;
    PlayerControls.TogglePlay(c, [a]);
    assert c.audio.paused;
  }

  /** While an unlisted source plays, the minimal layout's play button
      switches to the first track, where the play/pause control would pause. */
  method PlayButtonReplacesUnlistedSource() {
    var a := Track(Some(1), Some("a.mp3"), None);
    var c := new AudioController();
    c.SetTracks([a]);
    c.Play(Some("x.mp3"), None);
    assert PlayMatch([a], Some("x.mp3"), None) == -1;
    assert c.audio.src == "x.mp3" && !c.audio.paused && c.currentTrackIndex == -1;
    PlayerControls.PlayFirstTrack(c, [a]);
    assert PlayMatch([a], Some("a.mp3"), None) == 0;
    assert c.audio.src == "a.mp3" && !c.audio.paused && c.currentTrackIndex == 0;
  }

  /** At exactly 3 seconds the previous button restarts the track. */
  method PreviousButtonAtThreeSeconds() {
    var a := Track(Some(1), Some("a.mp3"), None);
    var b := Track(Some(2), Some("b.mp3"), None);
    var z := Track(Some(3), Some("c.mp3"), None);
    var c := StartSession(a, b, z);
    c.audio := c.audio.(currentTime := 3.0);
    PlayerControls.Prev(c);
    assert c.currentTrackIndex == 0 && c.audio.currentTime == 0.0 && c.audio.src == "a.mp3";
  }
}

=== FILE: text.dfy ===
/**
 * The string operations the player uses: the decimal rendering of an integer
 * (template literals, `toString`), `padStart`, and `s.split('/').pop()`.
 */
module Text {

  /** The decimal digit character for `d`. */
  function Digit(d: nat): char
    requires d < 10
  {
    (('0' as int) + d) as char
  }

  predicate IsDigits(s: string) {
    forall i | 0 <= i < |s| :: '0' <= s[i] <= '9'
  }

  /** The decimal rendering of `n`, as JavaScript prints a safe integer. */
  function NatToString(n: nat): (r: string)
    ensures 1 <= |r| && IsDigits(r)
    ensures |r| > 1 ==> r[0] != '0'
    ensures n < 10 <==> |r| == 1
    ensures n < 100 <==> |r| <= 2
    decreases n
  {
    if n < 10 then [Digit(n)] else NatToString(n / 10) + [Digit(n % 10)]
  }

  /** The number a string of decimal digits denotes: the inverse of `NatToString`. */
  function DigitsValue(s: string): nat
    requires IsDigits(s)
  {
    if s == [] then 0
    else DigitsValue(s[..|s| - 1]) * 10 + ((s[|s| - 1] as int) - ('0' as int))
  }

  /** Reading back a rendered number gives the number. */
  lemma {:induction false} NatToStringRoundTrip(n: nat)
    ensures DigitsValue(NatToString(n)) == n
  {
    var s := NatToString(n);
    if n < 10 {
      assert s[..|s| - 1] == [];
    } else {
      assert s[..|s| - 1] == NatToString(n / 10);
      NatToStringRoundTrip(n / 10);
    }
  }

  /** The rendering of an integer: a minus sign before the digits of a negative one. */
  function IntToString(i: int): string {
    if i < 0 then "-" + NatToString(-i) else NatToString(i)
  }

  /** `s.padStart(width, fill)`: `fill` repeated on the left up to `width` characters. */
  function PadStart(s: string, width: nat, fill: char): (r: string)
    ensures |r| == if |s| < width then width else |s|
    ensures r[|r| - |s|..] == s
    ensures forall i | 0 <= i < |r| - |s| :: r[i] == fill
  {
    if |s| < width then seq(width - |s|, _ => fill) + s else s
  }

  /** `s.split('/').pop()`: the text after the last '/', or all of `s`
      when it has none. */
  function LastSegment(s: string): (r: string)
    ensures '/' !in r
    ensures |r| <= |s| && r == s[|s| - |r|..]
    ensures |r| < |s| ==> s[|s| - |r| - 1] == '/'
  {
    if s == [] then []
    else if s[|s| - 1] == '/' then []
    else LastSegment(s[..|s| - 1]) + [s[|s| - 1]]
  }

  /** A path whose file name is `name` has `name` as its last segment,
      whatever directories precede it. */
  lemma LastSegmentOfPath(dir: string, name: string)
    requires '/' !in name
    ensures LastSegment(dir + "/" + name) == name
  {
    var s := dir + "/" + name;
    assert s[|dir|] == '/';
    assert |LastSegment(s)| == |name|;
    assert s[|s| - |name|..] == name;
  }

  /** A string without '/' is its own last segment. */
  lemma LastSegmentOfName(name: string)
    requires '/' !in name
    ensures LastSegment(name) == name
  {
  }
}
